=== FILE: README.md ===
# Month calendar: a Dafny model

This project models the logic of a small single-page calendar app. The month grid shows the days of the reference date's month, preceded by blank cells so that day 1 falls under its weekday. Each day cell lists the events dated on it: one label, two labels when there are exactly two, or one label plus a "+N more" control that opens the whole list. Clicking a day's background asks to create an event on that day. This is refused with "You cannot add events to past dates." unless the day's midnight is strictly in the future. Clicking a label, or an entry of the "more" list, opens that event in the editor. Prev and Next move the reference date by a fixed 30 days.

The editor starts from the record being edited (or empty). On submit it composes the chosen day and the entered time into an instant. If that instant is not strictly in the future it shows "You cannot add events to past times." and saves nothing. Otherwise it clears the message and saves `{title, time, date}` when both fields are filled. The store updates the record being edited by id, or appends a new record with a new id, and then closes the editor. Cancel closes the editor and leaves the store unchanged.

The model is functional. Each entity is an immutable datatype. Each handler is a pure transition function. The current instant `now` and the id of a newly created record are parameters.

- `Gregorian` (`gregorian.dfy`): proleptic Gregorian calendar arithmetic. Day numbers start at 1970-01-01 = day 0. The module proves that civil dates and day numbers convert into each other in both directions (`DateRoundTrip`, `FromDayNumber`), and it gives weekdays with 0 = Sunday. The month grid uses this module for the calendar facts that a date library would otherwise supply.
- `Clock` (`clock.dfy`): an instant is a day number plus a minute of the day. The module defines "strictly in the future" and whole-day shifts.
- `Events` (`events.dfy`): the event record, the editor's save payload and the per-day bucket. Its partition lemma says that buckets of distinct days count each event at most once. An event dated on one of those days is counted exactly once.
- `MonthView` (`month_view.dfy`): the loop that enumerates the days, the leading-blank count, the display rule, the day-click guard and the click dispatch of the calendar component.
- `EventForm` (`event_form.dfy`): the field reset, the composition of day and time, and the submit decision.
- `App` (`app.dfy`): the store, the selectors, save by edit or by creation, cancel, and the date handed to the editor.
- `Session` (`session.dfy`): the three components wired together, with the consistency invariant "the editor exists exactly while a selector is set" and the behaviour scenarios stated as lemmas.

Behaviour worth knowing, as the code has it:

- Every day cell stands for the midnight that starts its day. So the cell for today is always refused, and a day is accepted exactly when it comes after today (`MonthView.DayClickAcceptedIff`).
- An empty time composes to midnight, and the future check runs before the non-empty check. On a past day or on today, an empty field therefore still produces the past-times message. On a later day it produces neither a save nor a message (`EventForm.SubmitOnLaterDay`, `EventForm.SubmitOnEarlierDay`).
- Clicking the background of a day cell runs the day-click guard even when the cell already shows events: the cell's handler does not check whether the day has events.
- The 30-day step is not a calendar month. From the 1st of a 31-day month, Next stays in that month (`MonthView.NextCanStayInMonth`). From January 31st of a common year it lands on March 2nd, so that step passes over February (`MonthView.NextSkipsFebruary`).
- The edit branch is chosen by `editingEvent` alone. The payload's date is the day handed to the editor, which is `selectedDate` if that is set and otherwise the edited record's own date.
- The id of a created record comes from the clock, and the code does not check that it is unused. Uniqueness of ids is therefore proved only under the precondition that the new id is fresh (`App.SavePreservesUniqueIds`).

## Model

| member | source | states |
|---|---|---|
| Gregorian.FromDayNumber | src/components/Calender.jsx:9-10 | every day number has a valid civil date (year, month within 1..12, day within the month's length) whose day number is that number again |
| Gregorian.DateRoundTrip | src/components/Calender.jsx:9-19 | converting a valid civil date to its day number and back returns the same date, so the month of a day is well defined |
| Gregorian.DayNumberInjective | src/components/Calender.jsx:9-19 | two valid dates with the same day number are the same date (years are laid end to end, months inside a year too) |
| Gregorian.WeekdayAdvance | src/components/Calender.jsx:80 | `getDay` advances by one modulo 7 per day: day `first + i` is `i` weekdays after `first` |
| Gregorian.DaysInMonth | src/components/Calender.jsx:10 | the length of a month behind `endOfMonth`: between 28 and 31 days, February has 29 exactly in leap years, and every other month has at least 30 |
| Gregorian.Weekday | src/components/Calender.jsx:80 | `getDay` of a day number: an index in 0..6 with 0 = Sunday, and 1970-01-01 is a Thursday (4) |
| Clock.IsFuture | src/components/Calender.jsx:23 | `isFuture` at `now`: strictly later, ordering by day first and then by minute of the day, so `now` itself is not in the future (also used at src/components/EventForm.jsx:24) |
| Clock.MidnightIsFutureIff | src/components/Calender.jsx:23 | a day's midnight is in the future exactly when the day comes after today |
| Clock.AddDays | src/components/Calender.jsx:58-65 | shifting by k days keeps the time of day and moves the instant by exactly k × 1440 minutes |
| MonthView.StartOfMonth | src/components/Calender.jsx:9 | the first day of the shown month has civil day 1 in the reference date's year and month, and the month contains the reference day |
| MonthView.EndOfMonth | src/components/Calender.jsx:10 | the end of the month is the last minute of the day whose civil day equals the month's length |
| MonthView.CellCivilDate | src/components/Calender.jsx:16-19 | the day `i` days after the start of the month is day `i + 1` of that month, for every `i` below the month's length |
| MonthView.ShownDayHasOffset | src/components/Calender.jsx:9-19 | a day of the shown month sits its civil day, less one, after the month's first day, within the month's length |
| Gregorian.DayOfMonth | src/components/Calender.jsx:16-19 | `k` days after the first of a month, for `k` below the month's length, is that month's day `k + 1` |
| Gregorian.ShiftWithinMonth | src/components/Calender.jsx:65 | moving forward by `k` days without leaving the month only advances the day of the month |
| MonthView.InShownMonthOffset | src/components/Calender.jsx:9-19 | a day belongs to the shown month exactly when it is one of the days the loop collects, from the first day of the month up to but not past its last |
| MonthView.EnumerateDays | src/components/Calender.jsx:13-19 | the loop yields as many cells as the month has days under the leap-year rule; they are consecutive, and cell `i` is day `i + 1` of the reference date's month |
| MonthView.LeadingBlanks | src/components/Calender.jsx:80-84 | the number of blank cells is in 0..6; together with `MonthView.GridColumnIsWeekday` at `i = 0` it equals the weekday of the month's first day |
| MonthView.GridColumnIsWeekday | src/components/Calender.jsx:72-86 | after the blank cells, each day cell of the seven-column grid sits in the column of its own weekday |
| Events.Bucket | src/components/Calender.jsx:87 | a day's bucket holds exactly the events dated on that day, each element dated on it, and is no longer than the list |
| Events.BucketAppend | src/components/Calender.jsx:87 | bucketing distributes over concatenation, so buckets keep the collection order |
| Events.BucketsPartition | src/components/Calender.jsx:86-87 | over distinct days, the bucket sizes add up to the number of events dated on those days: each is counted once |
| MonthView.EventInExactlyOneCell | src/components/Calender.jsx:86-87 | an event is in some cell's bucket of the shown month if and only if it is dated in that month, and never in two cells |
| MonthView.MonthBucketsCount | src/components/Calender.jsx:86-87 | the cells of the month show, between them, exactly the events dated inside the month, each once |
| MonthView.Display | src/components/Calender.jsx:102-129 | n = 0 shows nothing; n ≥ 1 labels event 0; a second label appears exactly when n = 2; "+(n−1) more" appears exactly when n > 2; labels are a prefix of the bucket and labels plus the "more" count add up to n |
| MonthView.InitialCalendar | src/components/Calender.jsx:5-7 | the reference date starts at the current instant, with no banner and no open list |
| MonthView.HandleDayClick | src/components/Calender.jsx:21-35 | a cell not strictly in the future sets the past-dates message and selects nothing; otherwise the message is cleared and the day is selected; the reference date and the list are kept |
| MonthView.DayClickAcceptedIff | src/components/Calender.jsx:9-35 | a day is selected exactly when it comes after today, and the past-dates message appears exactly when it does not |
| MonthView.LabelClick | src/components/Calender.jsx:102-118 | a label on screen opens exactly the bucket event it shows; a slot that is not rendered, or a day outside the shown month, changes nothing; the calendar state is never touched |
| MonthView.MoreControlClick | src/components/Calender.jsx:119-129 | "+N more" on a shown day with more than two events opens the list on the whole bucket and changes nothing else; where the control is not rendered the click changes nothing |
| MonthView.MoreEntryClick | src/components/Calender.jsx:136-155 | choosing entry `i` of the open list edits that entry and closes the list; with no open list, or past its end, nothing changes |
| MonthView.Step | src/components/Calender.jsx:37-161 | day-cell clicks outside the shown month change nothing and inside it are `handleDayClick`; label, "+N more" and list clicks never run the day-click logic (banner unchanged, no date selected) and behave as `LabelClick`, `MoreControlClick` and `MoreEntryClick` state; Close only closes the list; Prev/Next shift by −30/+30 days and change nothing else |
| MonthView.EveryEventReachable | src/components/Calender.jsx:102-155 | every event of a shown day can be opened for editing, by its own label or from the list that "+N more" opens |
| MonthView.NavigationRoundTrip | src/components/Calender.jsx:56-67 | Next after Prev, and Prev after Next, restore the calendar state |
| MonthView.NextCanStayInMonth | src/components/Calender.jsx:63-67 | from the 1st of a 31-day month, Next lands on the 31st of the same month |
| MonthView.NextSkipsFebruary | src/components/Calender.jsx:63-67 | from January 31st of a common year, Next lands on March 2nd |
| EventForm.MinuteOfDay | src/components/EventForm.jsx:23 | an entered time's minute of the day gives back its hour and minute; an empty time is midnight |
| EventForm.ComposeInstant | src/components/EventForm.jsx:23 | the composed instant lies on the given day, the entered time can be read back from it, and an empty time gives the day's midnight |
| EventForm.ComposeInjective | src/components/EventForm.jsx:23 | two filled times on two days compose to the same instant only if the days and the times agree |
| EventForm.Reset | src/components/EventForm.jsx:9-17 | with a record, title and time become its fields; without one, both become empty; the error is untouched |
| EventForm.Mount | src/components/EventForm.jsx:5-17 | a newly mounted editor has no error and holds the record's title and time, or empty fields |
| EventForm.Submit | src/components/EventForm.jsx:19-35 | a past composed instant sets the past-times message and saves nothing; a future one clears the message; a save happens exactly when the instant is in the future and both fields are filled, carrying `{title, time, date}` with the given date; fields are never changed |
| EventForm.Handle | src/components/EventForm.jsx:47-73 | typing changes only its field; cancel emits the cancel signal and leaves title, time and error as they are; submit is the submit decision |
| EventForm.SubmitOnLaterDay | src/components/EventForm.jsx:23-34 | on a day after today the past-times message cannot appear, and a save happens exactly when both fields are filled |
| EventForm.SubmitOnEarlierDay | src/components/EventForm.jsx:23-27 | on a day before today the message appears and nothing is saved, whatever the fields hold |
| EventForm.SubmitToday | src/components/EventForm.jsx:23-34 | today, a save needs a title and a filled time later than the current minute |
| App.Init | src/App.jsx:7-9 | the store starts as the seed list, with both selectors empty |
| App.Merge | src/App.jsx:16 | merging keeps the record's id and takes title, time and date from the payload |
| App.UpdateById | src/App.jsx:14-18 | update by id keeps length and ids; each record with the id is merged with the payload and every other record is kept as is |
| App.Append | src/App.jsx:21 | creation keeps the old list as a prefix and adds exactly one record carrying the payload and the new id |
| App.SaveEvent | src/App.jsx:11-25 | with an edited record, the list keeps its length and only records with its id are merged (whatever `selectedDate` holds); otherwise one record is appended at the end; both selectors end up empty |
| App.CancelEdit | src/App.jsx:27-30 | cancel empties both selectors and keeps the list |
| App.EditorOpen | src/App.jsx:41 | the editor is rendered exactly when `selectedDate` or `editingEvent` is set, and is closed exactly when both are empty |
| App.FormDate | src/App.jsx:45 | the editor gets `selectedDate` when it is set, otherwise the edited record's date |
| App.SaveClosesEditor | src/App.jsx:23-24 | after any save the editor is closed |
| App.CancelClosesEditor | src/App.jsx:27-30 | after cancel the editor is closed and the list unchanged |
| App.EditChangesOnlyTarget | src/App.jsx:12-18 | with unique ids, an edit keeps length, order and ids, and changes at most one record, to the payload's fields |
| App.UpdateByIdIdempotent | src/App.jsx:14-18 | repeating the same update by id changes nothing further |
| App.SavePreservesUniqueIds | src/App.jsx:11-22 | ids stay unique after a save, provided a created record's id is not yet in use |
| App.CreateExtendsBucket | src/App.jsx:21 | a created record is added last to the bucket of its day and leaves every other bucket unchanged |
| Session.Start | src/App.jsx:7-9 | the session starts with the seed list, the editor closed and the state consistent |
| Session.Route | src/App.jsx:36-40 | a selected day sets only `selectedDate`, an event sets only `editingEvent`, and the store is never touched |
| Session.SyncForm | src/App.jsx:41-49 | the editor exists exactly while a selector is set; it is mounted from `editingEvent` when it opens, kept while that record is unchanged, and reset to the new record's title and time (error kept) when `editingEvent` changes, so nothing stale carries over |
| Session.Step | src/App.jsx:11-49 | a calendar click runs the calendar, routes its `setEvent`/`setEditingEvent` request into the selectors (`Session.Route`) and mounts, keeps, resets or drops the editor (`Session.SyncForm`), and never changes the store; typing a title or picking a time updates only the open editor's form; with no editor on screen, editor inputs change nothing; Cancel from the open editor keeps the store and closes the editor; an accepted submit goes through `saveEvent` (`App.SaveEvent`) and closes the editor, even when the list comes out unchanged; a refused submit keeps store and selectors and leaves the editor open with the message; only a save changes the store; editor inputs never change the calendar |
| Session.StepKeepsConsistent | src/App.jsx:41 | every input keeps "the editor exists exactly while a selector is set" |
| Session.StepKeepsUniqueIds | src/App.jsx:11-25 | every input keeps ids unique, given a fresh id for a created record |
| Session.UnchangedEditRoundTrip | src/App.jsx:11-18 | opening a stored event and submitting it with its fields untouched writes the same record back and closes the editor: the editor's reset and the store's merge undo each other |
| Session.CreateScenario | src/App.jsx:19-24 | on an empty store, clicking a later day, typing "Standup", picking 09:00 and submitting stores exactly that record on that day and closes the editor |
| Session.PastDayScenario | src/components/Calender.jsx:21-30 | clicking a day that is not after today shows the past-dates banner, keeps the store and does not open the editor |
| Session.PastEditScenario | src/components/EventForm.jsx:23-27 | an edit whose composed instant is past shows the past-times message, keeps the store and leaves the editor open |
| Session.MoreListScenario | src/components/Calender.jsx:119-155 | for a day with three events, "+2 more" opens all three in order, and choosing the third opens the editor on it with its title and time |

## Left out

- Rendering: the JSX, the styling classes, the modal overlays and the header and label text produced by `format(...)` are not modelled. An overlay that blocks clicks underneath it is not modelled either, so the model accepts any input sequence.
- The 2-second `setTimeout` that clears the past-dates banner is not modelled, and neither is its race with a newer banner. Both are timer behaviour. Only the synchronous assignment of the banner is modelled.
- The real clock (`isFuture`, `new Date()`, `Date.now()`) is never read. `now` and the new record's id are parameters. `now` is taken to the minute. This does not change any outcome, because every instant compared against it is minute-aligned.
- Parsing of date and time strings is not modelled, and neither are parse failures. `event.date` is a day number and the time field is an hour and minute or empty. Time zones, daylight saving and the seed file's contents are also left out. The calendar is the proleptic Gregorian one applied to every year, as the JavaScript `Date` does.
- React hook scheduling and the `stopPropagation`/`preventDefault` mechanics are not modelled. Each click names the element it landed on. A click on an element that is not rendered changes nothing.
- React's reference comparison of `initialData` is modelled as value comparison.
- EventForm.Submit: the model always has a calendar day to compose with. In the code, editing a record loaded from the seed file hands the editor that record's `date` as it came from JSON, a string or a number rather than a `Date`. Calling `toDateString` on it throws before any message is set or any save is made, so the editor stays open with nothing shown. The model treats every `date` as a day and validates it like any other. That failure comes from the runtime type of the seed data, which is not part of this model.

=== FILE: app.dfy ===
/** The application state of `App.jsx`: the event store and the two selectors
    that decide whether the editor is open and what it edits.

    The new record's id comes from the clock in the application; here it is a
    parameter, and its freshness is a precondition of the lemmas that need it.
 */
module App {
  import opened Events
  import opened Wrappers

  /** `events`, `selectedDate` (a day, set for a new event) and `editingEvent`
      (set for an edit). */
  datatype AppState = AppState(events: seq<Event>, selectedDate: Option<int>, editingEvent: Option<Event>)

  predicate UniqueIds(events: seq<Event>) {
    forall i, j :: 0 <= i < j < |events| ==> events[i].id != events[j].id
  }

  predicate FreshId(events: seq<Event>, id: int) {
    forall i :: 0 <= i < |events| ==> events[i].id != id
  }

  /** The store starts as the seed list with the editor closed. */
  function Init(seed: seq<Event>): (s: AppState)
    ensures s.events == seed && s.selectedDate.None? && s.editingEvent.None?
  {
    AppState(seed, None, None)
  }

  /** `{...event, ...newEvent}`: the payload's fields over the record's, so the
      id survives. */
  function Merge(e: Event, d: Draft): (r: Event)
    ensures r.id == e.id
    ensures r.title == d.title && r.time == d.time && r.date == d.date
  {
    e.(title := d.title, time := d.time, date := d.date)
  }

  /** `prevEvents.map(event => event.id === id ? merge : event)`. */
  function UpdateById(events: seq<Event>, id: int, d: Draft): (r: seq<Event>)
    ensures |r| == |events|
    ensures forall i :: 0 <= i < |r| ==> r[i].id == events[i].id
    ensures forall i :: 0 <= i < |r| && events[i].id == id ==> r[i] == Merge(events[i], d)
    ensures forall i :: 0 <= i < |r| && events[i].id != id ==> r[i] == events[i]
    decreases |events|
  {
    if |events| == 0 then []
    else [if events[0].id == id then Merge(events[0], d) else events[0]] + UpdateById(events[1..], id, d)
  }

  /** `[...events, {...newEvent, id}]`. */
  function Append(events: seq<Event>, d: Draft, id: int): (r: seq<Event>)
    ensures |r| == |events| + 1
    ensures r[..|events|] == events
    ensures r[|events|] == Event(id, d.title, d.time, d.date)
  {
    events + [Event(id, d.title, d.time, d.date)]
  }

  /** `saveEvent`: update the record being edited when there is one, otherwise
      append a new record; then close the editor. */
  function SaveEvent(s: AppState, d: Draft, newId: int): (r: AppState)
    ensures r.selectedDate.None? && r.editingEvent.None?
    // edit branch, taken whatever `selectedDate` holds: same length, matching records merged
    ensures s.editingEvent.Some? ==> |r.events| == |s.events|
    ensures s.editingEvent.Some? ==> forall i :: 0 <= i < |s.events| ==>
      r.events[i] == (if s.events[i].id == s.editingEvent.value.id then Merge(s.events[i], d) else s.events[i])
    // create branch: one record appended, earlier records kept
    ensures s.editingEvent.None? ==> |r.events| == |s.events| + 1
    ensures s.editingEvent.None? ==> r.events[..|s.events|] == s.events
    ensures s.editingEvent.None? ==> r.events[|s.events|] == Event(newId, d.title, d.time, d.date)
  {
    var events :=
      if s.editingEvent.Some? then UpdateById(s.events, s.editingEvent.value.id, d)
      else Append(s.events, d, newId);
    AppState(events, None, None)
  }

  /** `cancelEdit`: close the editor, keep the store. */
  function CancelEdit(s: AppState): (r: AppState)
    ensures r.events == s.events
    ensures r.selectedDate.None? && r.editingEvent.None?
  {
    AppState(s.events, None, None)
  }

  /** The editor is rendered while either selector is set. */
  function EditorOpen(s: AppState): (open: bool)
    ensures !open <==> s.selectedDate == None && s.editingEvent == None
  {
    s.selectedDate.Some? || s.editingEvent.Some?
  }

  /** `selectedDate || editingEvent?.date`: the day handed to the editor. */
  function FormDate(s: AppState): (day: int)
    requires EditorOpen(s)
    ensures s.selectedDate.Some? ==> day == s.selectedDate.value
    ensures s.selectedDate.None? ==> day == s.editingEvent.value.date
  {
    if s.selectedDate.Some? then s.selectedDate.value else s.editingEvent.value.date
  }

  /** After a save the editor is closed, whichever branch was taken. */
  lemma SaveClosesEditor(s: AppState, d: Draft, newId: int)
    ensures !EditorOpen(SaveEvent(s, d, newId))
  {
  }

  /** Cancelling closes the editor and leaves the store as it was. */
  lemma CancelClosesEditor(s: AppState)
    ensures !EditorOpen(CancelEdit(s)) && CancelEdit(s).events == s.events
  {
  }

  /** An edit keeps the list's length, order and ids; with unique ids at most
      one record changes, and it takes the payload's fields. */
  lemma {:induction false} EditChangesOnlyTarget(s: AppState, d: Draft, newId: int)
    requires s.editingEvent.Some?
    requires UniqueIds(s.events)
    ensures var r := SaveEvent(s, d, newId).events;
      && |r| == |s.events|
      && (forall i :: 0 <= i < |r| ==> r[i].id == s.events[i].id)
      && (forall i, j :: 0 <= i < |r| && 0 <= j < |r| && r[i] != s.events[i] && r[j] != s.events[j] ==> i == j)
      && (forall i :: 0 <= i < |r| && r[i] != s.events[i] ==>
            r[i].id == s.editingEvent.value.id && r[i].title == d.title && r[i].time == d.time && r[i].date == d.date)
  {
    var r := SaveEvent(s, d, newId).events;
    var id := s.editingEvent.value.id;
    forall i, j | 0 <= i < |r| && 0 <= j < |r| && r[i] != s.events[i] && r[j] != s.events[j]
      ensures i == j
    {
      assert s.events[i].id == id && s.events[j].id == id;
    }
  }

  /** Updating by id twice with the same payload is the same as once. */
  lemma UpdateByIdIdempotent(events: seq<Event>, id: int, d: Draft)
    ensures UpdateById(UpdateById(events, id, d), id, d) == UpdateById(events, id, d)
  {
  }

  /** A save keeps ids unique, provided a created record gets an id not yet in use. */
  lemma SavePreservesUniqueIds(s: AppState, d: Draft, newId: int)
    requires UniqueIds(s.events)
    requires s.editingEvent.None? ==> FreshId(s.events, newId)
    ensures UniqueIds(SaveEvent(s, d, newId).events)
  {
    var r := SaveEvent(s, d, newId).events;
    if s.editingEvent.None? {
      forall i, j | 0 <= i < j < |r|
        ensures r[i].id != r[j].id
      {
        assert r[i] == s.events[i];
        if j < |s.events| {
          assert r[j] == s.events[j];
        }
      }
    }
  }

  /** A created record shows up last in the bucket of its day and in no other
      bucket; every other day's bucket is unchanged. */
  lemma CreateExtendsBucket(s: AppState, d: Draft, newId: int, day: int)
    requires s.editingEvent.None?
    ensures var r := SaveEvent(s, d, newId).events;
      Bucket(r, day) ==
        if day == d.date then Bucket(s.events, day) + [Event(newId, d.title, d.time, d.date)]
        else Bucket(s.events, day)
  {
    var e := Event(newId, d.title, d.time, d.date);
    BucketAppend(s.events, [e], day);
    assert Bucket([e], day) == (if e.date == day then [e] else []) + Bucket([], day);
  }
}

=== FILE: clock.dfy ===
/** Instants as a day number plus a minute of that day, and the two clock
    operations the application uses: "is this instant strictly in the future"
    and "shift by a whole number of days".

    The real clock is never read: the current instant is always a parameter
    named `now`. Every instant compared against `now` is minute-aligned (day
    cells are at midnight, entered times are hours and minutes), so flooring
    `now` to its minute does not change the outcome of a strict comparison.
 */
module Clock {

  const MinutesPerDay := 1440

  type Minute = m: int | 0 <= m < MinutesPerDay

  datatype Instant = Instant(day: int, minute: Minute)

  /** Minutes since the epoch; instants are ordered by it. */
  function Ticks(t: Instant): int {
    t.day * MinutesPerDay + t.minute
  }

  /** `isFuture(t)` evaluated at `now`: strictly later, so `now` itself is not
      in the future. */
  function IsFuture(t: Instant, now: Instant): (future: bool)
    // the instant order is the lexicographic order on (day, minute)
    ensures future <==> t.day > now.day || (t.day == now.day && t.minute > now.minute)
  {
    assert t.day > now.day ==> Ticks(t) >= (now.day + 1) * MinutesPerDay;
    assert t.day < now.day ==> Ticks(now) >= (t.day + 1) * MinutesPerDay;
    Ticks(t) > Ticks(now)
  }

  /** Midnight at the start of a day, the instant every calendar cell stands for. */
  function Midnight(day: int): Instant {
    Instant(day, 0)
  }

  /** `addDays(t, k)`: the same time of day, `k` days later (earlier when negative). */
  function AddDays(t: Instant, k: int): (r: Instant)
    ensures Ticks(r) == Ticks(t) + k * MinutesPerDay
    ensures r.minute == t.minute
  {
    Instant(t.day + k, t.minute)
  }

  /** A midnight is in the future exactly when its day is after today: today's
      own midnight never is. */
  lemma MidnightIsFutureIff(day: int, now: Instant)
    ensures IsFuture(Midnight(day), now) <==> day > now.day
  {
  }
}

=== FILE: event_form.dfy ===
/** The event editor of `EventForm.jsx`: its fields, their reset from the
    record being edited, and the submit decision.

    The editor composes the instant to validate from the calendar day of the
    date it was given and the entered time; an empty time composes to
    midnight, as parsing `"<date string> "` does. The future check runs before
    the non-empty check, so an empty field on a past day still shows the
    past-times error, and on a future day produces neither a save nor an error.
 */
module EventForm {
  import opened Clock
  import opened Events
  import opened Wrappers

  const PastTimesMessage := "You cannot add events to past times."

  /** The editor's state: the two inputs and the inline error (empty when hidden). */
  datatype Form = Form(title: string, time: TimeInput, error: string)

  /** What the editor hands back to the application. */
  datatype Emit = Nothing | Save(draft: Draft) | Cancel

  datatype FormInput = TypeTitle(title: string) | PickTime(time: TimeInput) | SubmitForm | CancelForm

  function MinuteOfDay(t: TimeInput): (m: Minute)
    ensures t.At? ==> m / 60 == t.hour && m % 60 == t.minute
    ensures t.Blank? ==> m == 0
  {
    match t
    case Blank => 0
    case At(h, mm) => h * 60 + mm
  }

  /** `new Date(`${selectedDate.toDateString()} ${time}`)`: the given day at the
      entered time. The entered time can be read back from the instant. */
  function ComposeInstant(date: int, time: TimeInput): (t: Instant)
    ensures t.day == date
    ensures time.At? ==> t.minute / 60 == time.hour && t.minute % 60 == time.minute
    ensures time.Blank? ==> t == Midnight(date)
  {
    Instant(date, MinuteOfDay(time))
  }

  /** Two entered times on two days compose to the same instant only when the
      days and the times are the same. */
  lemma ComposeInjective(d1: int, t1: TimeInput, d2: int, t2: TimeInput)
    requires t1.At? && t2.At?
    requires ComposeInstant(d1, t1) == ComposeInstant(d2, t2)
    ensures d1 == d2 && t1 == t2
  {
  }

  /** The effect on `initialData`: copy the record's title and time into the
      fields, or clear both when there is no record. The error is untouched. */
  function Reset(f: Form, initialData: Option<Event>): (r: Form)
    ensures r.error == f.error
    ensures initialData.Some? ==> r.title == initialData.value.title && r.time == initialData.value.time
    ensures initialData.None? ==> r.title == "" && r.time == Blank
  {
    match initialData
    case Some(e) => f.(title := e.title, time := e.time)
    case None => f.(title := "", time := Blank)
  }

  /** A freshly mounted editor: empty state, then the reset effect. */
  function Mount(initialData: Option<Event>): (r: Form)
    ensures r.error == ""
    ensures initialData.Some? ==> r.title == initialData.value.title && r.time == initialData.value.time
    ensures initialData.None? ==> r.title == "" && r.time == Blank
  {
    Reset(Form("", Blank, ""), initialData)
  }

  /** `handleSubmit`: refuse an instant that is not strictly in the future;
      otherwise clear the error and save when both fields are filled. The saved
      date is the one the editor was given, not the composed instant. */
  function Submit(f: Form, selectedDate: int, now: Instant): (r: (Form, Emit))
    ensures r.0.title == f.title && r.0.time == f.time
    ensures r.1.Nothing? || r.1.Save?
    ensures !IsFuture(ComposeInstant(selectedDate, f.time), now) ==>
      r.0.error == PastTimesMessage && r.1.Nothing?
    ensures IsFuture(ComposeInstant(selectedDate, f.time), now) ==> r.0.error == ""
    ensures r.1.Save? <==>
      IsFuture(ComposeInstant(selectedDate, f.time), now) && f.title != "" && f.time.At?
    ensures r.1.Save? ==> r.1.draft == Draft(f.title, f.time, selectedDate)
    ensures r.1.Save? ==> IsFuture(ComposeInstant(r.1.draft.date, r.1.draft.time), now)
  {
    if !IsFuture(ComposeInstant(selectedDate, f.time), now) then
      (f.(error := PastTimesMessage), Nothing)
    else if f.title != "" && f.time.At? then
      (f.(error := ""), Save(Draft(f.title, f.time, selectedDate)))
    else
      (f.(error := ""), Nothing)
  }

  function Handle(f: Form, input: FormInput, selectedDate: int, now: Instant): (r: (Form, Emit))
    ensures input.CancelForm? ==> r == (f, Cancel)
    ensures input.TypeTitle? ==> r == (f.(title := input.title), Nothing)
    ensures input.PickTime? ==> r == (f.(time := input.time), Nothing)
    ensures input.SubmitForm? ==> r == Submit(f, selectedDate, now)
  {
    match input
    case TypeTitle(s) => (f.(title := s), Nothing)
    case PickTime(t) => (f.(time := t), Nothing)
    case SubmitForm => Submit(f, selectedDate, now)
    case CancelForm => (f, Cancel)
  }

  /** On a day after today every time is in the future: the past-times error
      cannot appear, and the save depends only on the fields being filled. */
  lemma SubmitOnLaterDay(f: Form, selectedDate: int, now: Instant)
    requires selectedDate > now.day
    ensures Submit(f, selectedDate, now).0.error == ""
    ensures Submit(f, selectedDate, now).1.Save? <==> f.title != "" && f.time.At?
  {
  }

  /** On a day before today every time is in the past: the error appears and
      nothing is saved, whatever the fields hold. */
  lemma SubmitOnEarlierDay(f: Form, selectedDate: int, now: Instant)
    requires selectedDate < now.day
    ensures Submit(f, selectedDate, now).0.error == PastTimesMessage
    ensures Submit(f, selectedDate, now).1.Nothing?
  {
  }

  /** Today, a save needs a filled time later than the current minute. */
  lemma SubmitToday(f: Form, now: Instant)
    ensures Submit(f, now.day, now).1.Save? <==>
      f.title != "" && f.time.At? && MinuteOfDay(f.time) > now.minute
  {
  }
}

=== FILE: events.dfy ===
/** Event records and the per-day bucketing of the event list.

    An event is anchored to a calendar day (a day number) and carries a title
    and a time of day as entered in the editor. A bucket is what the month grid
    shows under one day cell: `events.filter(e => isSameDay(e.date, day))`.
 */
module Events {

  type Hour = h: int | 0 <= h < 24
  type MinuteOfHour = m: int | 0 <= m < 60

  /** The value of an `<input type="time">`: empty, or hours and minutes. */
  datatype TimeInput = Blank | At(hour: Hour, minute: MinuteOfHour)

  /** A stored event `{id, title, time, date}`. */
  datatype Event = Event(id: int, title: string, time: TimeInput, date: int)

  /** The payload the editor hands to the store: `{title, time, date}`, no id. */
  datatype Draft = Draft(title: string, time: TimeInput, date: int)

  /** The events dated on `day`, in collection order. */
  function Bucket(events: seq<Event>, day: int): (r: seq<Event>)
    ensures |r| <= |events|
    ensures forall i :: 0 <= i < |r| ==> r[i].date == day
    ensures forall e :: e in r <==> e in events && e.date == day
    decreases |events|
  {
    if |events| == 0 then []
    else (if events[0].date == day then [events[0]] else []) + Bucket(events[1..], day)
  }

  /** Bucketing respects concatenation, so it keeps the collection order: the
      events of a prefix come before those of the rest. */
  lemma {:induction false} BucketAppend(a: seq<Event>, b: seq<Event>, day: int)
    ensures Bucket(a + b, day) == Bucket(a, day) + Bucket(b, day)
    decreases |a|
  {
    if |a| > 0 {
      assert (a + b)[1..] == a[1..] + b;
      BucketAppend(a[1..], b, day);
    } else {
      assert a + b == b;
    }
  }

  predicate Distinct(days: seq<int>) {
    forall i, j :: 0 <= i < j < |days| ==> days[i] != days[j]
  }

  /** Total number of events shown across the buckets of `days`. */
  function SumBuckets(events: seq<Event>, days: seq<int>): nat
    decreases |days|
  {
    if |days| == 0 then 0 else |Bucket(events, days[0])| + SumBuckets(events, days[1..])
  }

  /** The events whose date is one of `days`, in collection order. */
  function DatedWithin(events: seq<Event>, days: seq<int>): seq<Event>
    decreases |events|
  {
    if |events| == 0 then []
    else (if events[0].date in days then [events[0]] else []) + DatedWithin(events[1..], days)
  }

  function Occurrences(days: seq<int>, d: int): nat
    decreases |days|
  {
    if |days| == 0 then 0 else (if days[0] == d then 1 else 0) + Occurrences(days[1..], d)
  }

  lemma {:induction false} OccurrencesDistinct(days: seq<int>, d: int)
    requires Distinct(days)
    ensures Occurrences(days, d) == if d in days then 1 else 0
    decreases |days|
  {
    if |days| > 0 {
      OccurrencesDistinct(days[1..], d);
      if days[0] == d {
        assert d !in days[1..] by {
          forall k | 0 <= k < |days[1..]|
            ensures days[1..][k] != d
          {
            assert days[1..][k] == days[k + 1];
          }
        }
      } else {
        assert d in days <==> d in days[1..] by {
          assert days == [days[0]] + days[1..];
        }
      }
    }
  }

  lemma {:induction false} SumBucketsEmpty(days: seq<int>)
    ensures SumBuckets([], days) == 0
    decreases |days|
  {
    if |days| > 0 {
      SumBucketsEmpty(days[1..]);
    }
  }

  /** Adding one event in front adds it to every bucket whose day is its date. */
  lemma {:induction false} SumBucketsCons(events: seq<Event>, days: seq<int>)
    requires |events| > 0
    ensures SumBuckets(events, days) == Occurrences(days, events[0].date) + SumBuckets(events[1..], days)
    decreases |days|
  {
    if |days| > 0 {
      SumBucketsCons(events, days[1..]);
    }
  }

  /** Buckets of distinct days partition the events dated on those days: each
      such event is counted exactly once, and no other event is counted. */
  lemma {:induction false} BucketsPartition(events: seq<Event>, days: seq<int>)
    requires Distinct(days)
    ensures SumBuckets(events, days) == |DatedWithin(events, days)|
    decreases |events|
  {
    if |events| == 0 {
      SumBucketsEmpty(days);
    } else {
      SumBucketsCons(events, days);
      OccurrencesDistinct(days, events[0].date);
      BucketsPartition(events[1..], days);
    }
  }
}

=== FILE: gregorian.dfy ===
/** Proleptic Gregorian calendar arithmetic over day numbers.

    Day number 0 is 1970-01-01; every integer is a day, negative ones lie before
    the epoch. The month grid needs three things from the calendar: which month
    a day belongs to, how long that month is, and the weekday of its first day.
    They are defined here from the leap-year rule alone, and the conversion
    between civil dates and day numbers is proved to be a bijection.
 */
module Gregorian {

  /** The year whose January 1st is day number 0. */
  const EpochYear := 1970

  /** Weekday index of day number 0 (1970-01-01 was a Thursday; 0 = Sunday). */
  const EpochWeekday := 4

  datatype Date = Date(year: int, month: int, day: int)

  predicate IsLeapYear(y: int) {
    y % 4 == 0 && (y % 100 != 0 || y % 400 == 0)
  }

  function YearLength(y: int): int {
    if IsLeapYear(y) then 366 else 365
  }

  function DaysInMonth(y: int, m: int): (n: int)
    requires 1 <= m <= 12
    ensures 28 <= n <= 31
    ensures m == 2 ==> (n == 29 <==> IsLeapYear(y))
    ensures m != 2 ==> n >= 30
  {
    if m == 2 then (if IsLeapYear(y) then 29 else 28)
    else if m == 4 || m == 6 || m == 9 || m == 11 then 30
    else 31
  }

  /** Days of year `y` that precede the first day of month `m`; month 13 stands
      for the first day of the following year. */
  function DaysBeforeMonth(y: int, m: int): int
    requires 1 <= m <= 13
  {
    var common :=
      if m == 1 then 0 else if m == 2 then 31 else if m == 3 then 59
      else if m == 4 then 90 else if m == 5 then 120 else if m == 6 then 151
      else if m == 7 then 181 else if m == 8 then 212 else if m == 9 then 243
      else if m == 10 then 273 else if m == 11 then 304 else if m == 12 then 334
      else 365;
    if m > 2 && IsLeapYear(y) then common + 1 else common
  }

  /** Day number of January 1st of year `y`, built one year at a time outward
      from the epoch. */
  function YearStart(y: int): int
    decreases if y >= EpochYear then y - EpochYear else EpochYear - y
  {
    if y == EpochYear then 0
    else if y > EpochYear then YearStart(y - 1) + YearLength(y - 1)
    else YearStart(y + 1) - YearLength(y)
  }

  predicate ValidDate(d: Date) {
    1 <= d.month <= 12 && 1 <= d.day <= DaysInMonth(d.year, d.month)
  }

  function DayNumber(d: Date): int
    requires ValidDate(d)
  {
    YearStart(d.year) + DaysBeforeMonth(d.year, d.month) + d.day - 1
  }

  /** Weekday index of a day number, 0 = Sunday through 6 = Saturday, as the
      JavaScript `Date.getDay` numbers them. */
  function Weekday(n: int): (w: int)
    ensures 0 <= w < 7
    ensures n == 0 ==> w == EpochWeekday
  {
    (n + EpochWeekday) % 7
  }

  lemma MonthStep(y: int, m: int)
    requires 1 <= m <= 12
    ensures DaysBeforeMonth(y, m + 1) == DaysBeforeMonth(y, m) + DaysInMonth(y, m)
  {
  }

  lemma YearStartStep(y: int)
    ensures YearStart(y + 1) == YearStart(y) + YearLength(y)
  {
  }

  /** Years are laid end to end: a later year starts no earlier than the end of
      an earlier one. */
  lemma {:induction false} YearStartOrdered(a: int, b: int)
    requires a < b
    ensures YearStart(a + 1) <= YearStart(b)
    decreases b - a
  {
    if a + 1 < b {
      YearStartOrdered(a, b - 1);
      YearStartStep(b - 1);
    }
  }

  lemma DaysBeforeMonthOrdered(y: int, a: int, b: int)
    requires 1 <= a < b <= 13
    ensures DaysBeforeMonth(y, a + 1) <= DaysBeforeMonth(y, b)
  {
  }

  /** The year containing day `n`, found by walking from year `y` one year at a
      time (the offset of 400 keeps the measure decreasing when the walk turns). */
  function FindYear(n: int, y: int): (r: int)
    ensures YearStart(r) <= n < YearStart(r + 1)
    decreases if n < YearStart(y) then YearStart(y) - n + 400 else n - YearStart(y)
  {
    YearStartStep(y);
    YearStartStep(y - 1);
    if n < YearStart(y) then FindYear(n, y - 1)
    else if n >= YearStart(y + 1) then FindYear(n, y + 1)
    else y
  }

  /** The month of year `y` containing day `offset` of that year. */
  function FindMonth(y: int, offset: int, m: int): (r: int)
    requires 1 <= m <= 12
    requires DaysBeforeMonth(y, m) <= offset < YearLength(y)
    ensures m <= r <= 12
    ensures DaysBeforeMonth(y, r) <= offset < DaysBeforeMonth(y, r + 1)
    decreases 12 - m
  {
    if offset < DaysBeforeMonth(y, m + 1) then m else FindMonth(y, offset, m + 1)
  }

  /** The civil date of a day number. */
  function FromDayNumber(n: int): (d: Date)
    ensures ValidDate(d)
    ensures DayNumber(d) == n
  {
    var y := FindYear(n, EpochYear);
    var offset := n - YearStart(y);
    YearStartStep(y);
    var m := FindMonth(y, offset, 1);
    MonthStep(y, m);
    Date(y, m, offset - DaysBeforeMonth(y, m) + 1)
  }

  /** A valid date's day number lies inside its own year and month. */
  lemma DayNumberBounds(d: Date)
    requires ValidDate(d)
    ensures YearStart(d.year) <= DayNumber(d) < YearStart(d.year + 1)
    ensures DaysBeforeMonth(d.year, d.month) <= DayNumber(d) - YearStart(d.year)
    ensures DayNumber(d) - YearStart(d.year) < DaysBeforeMonth(d.year, d.month + 1)
  {
    YearStartStep(d.year);
    MonthStep(d.year, d.month);
    DaysBeforeMonthOrdered(d.year, d.month, 13);
  }

  /** Distinct valid dates have distinct day numbers. */
  lemma DayNumberInjective(a: Date, b: Date)
    requires ValidDate(a) && ValidDate(b)
    requires DayNumber(a) == DayNumber(b)
    ensures a == b
  {
    DayNumberBounds(a);
    DayNumberBounds(b);
    if a.year < b.year {
      YearStartOrdered(a.year, b.year);
    } else if b.year < a.year {
      YearStartOrdered(b.year, a.year);
    }
    assert a.year == b.year;
    if a.month < b.month {
      DaysBeforeMonthOrdered(a.year, a.month, b.month);
    } else if b.month < a.month {
      DaysBeforeMonthOrdered(a.year, b.month, a.month);
    }
  }

  /** Converting a valid date to its day number and back gives the date again. */
  lemma DateRoundTrip(d: Date)
    requires ValidDate(d)
    ensures FromDayNumber(DayNumber(d)) == d
  {
    DayNumberInjective(FromDayNumber(DayNumber(d)), d);
  }

  /** The day `k` days after the first of a month is that month's day `k + 1`. */
  lemma DayOfMonth(y: int, m: int, k: int)
    requires 1 <= m <= 12 && 0 <= k < DaysInMonth(y, m)
    ensures FromDayNumber(DayNumber(Date(y, m, 1)) + k) == Date(y, m, k + 1)
  {
    assert DayNumber(Date(y, m, k + 1)) == DayNumber(Date(y, m, 1)) + k;
    DateRoundTrip(Date(y, m, k + 1));
  }

  /** Moving `k` days forward inside a month only advances the day of the month. */
  lemma ShiftWithinMonth(n: int, k: nat)
    requires FromDayNumber(n).day + k <= DaysInMonth(FromDayNumber(n).year, FromDayNumber(n).month)
    ensures FromDayNumber(n + k) ==
      Date(FromDayNumber(n).year, FromDayNumber(n).month, FromDayNumber(n).day + k)
  {
    var d := FromDayNumber(n);
    var e := Date(d.year, d.month, d.day + k);
    assert DayNumber(e) == n + k;
    DateRoundTrip(e);
  }

  /** Day `first + i` falls `i` weekdays after `first`. */
  lemma WeekdayAdvance(first: int, i: nat)
    ensures Weekday(first + i) == (Weekday(first) + i) % 7
  {
  }
}

=== FILE: month_view.dfy ===
/** The month grid of `Calender.jsx`: which day cells are shown for the
    reference date, how many blank cells precede them, what each cell shows of
    its bucket, and how the component reacts to clicks.

    Clicks are inputs that name their target (a day cell's background, one of
    its event labels, its "+N more" control, an entry of the open "more" list,
    the list's Close button, Prev, Next), so a click on an event label never
    reaches the day-cell handler. A click on something that is not on screen
    (a day outside the shown month, a label slot the cell does not render, a
    "+N more" control on a bucket of two or fewer events, an entry of a list
    that is not open) changes nothing.
 */
module MonthView {
  import opened Gregorian
  import opened Clock
  import opened Events
  import opened Wrappers

  const PastDatesMessage := "You cannot add events to past dates."

  /** Prev and Next move the reference date by this many days. */
  const NavigationStep := 30

  /** The civil date of the reference instant; its year and month are the
      month on screen. */
  function Shown(reference: Instant): Date {
    FromDayNumber(reference.day)
  }

  predicate InShownMonth(reference: Instant, day: int) {
    var c := Shown(reference);
    var d := FromDayNumber(day);
    d.year == c.year && d.month == c.month
  }

  function MonthLength(reference: Instant): int {
    var c := Shown(reference);
    DaysInMonth(c.year, c.month)
  }

  /** `startOfMonth(currentDate)`: the first day of the shown month, which
      contains the reference day. */
  function StartOfMonth(reference: Instant): (first: int)
    ensures FromDayNumber(first) == Date(Shown(reference).year, Shown(reference).month, 1)
    ensures first <= reference.day < first + MonthLength(reference)
  {
    var c := Shown(reference);
    DateRoundTrip(Date(c.year, c.month, 1));
    DayNumber(Date(c.year, c.month, 1))
  }

  /** `endOfMonth(currentDate)`: the last minute of the last day of the shown month. */
  function EndOfMonth(reference: Instant): (last: Instant)
    ensures FromDayNumber(last.day) == Date(Shown(reference).year, Shown(reference).month, MonthLength(reference))
    ensures last.minute == MinutesPerDay - 1
  {
    var c := Shown(reference);
    DateRoundTrip(Date(c.year, c.month, DaysInMonth(c.year, c.month)));
    Instant(DayNumber(Date(c.year, c.month, DaysInMonth(c.year, c.month))), MinutesPerDay - 1)
  }

  /** Day `i` of the shown month (counting from 0) is the civil date with day `i + 1`. */
  lemma CellCivilDate(reference: Instant, i: int)
    requires 0 <= i < MonthLength(reference)
    ensures FromDayNumber(StartOfMonth(reference) + i) == Date(Shown(reference).year, Shown(reference).month, i + 1)
  {
    var c := Shown(reference);
    assert StartOfMonth(reference) == DayNumber(Date(c.year, c.month, 1));
    DayOfMonth(c.year, c.month, i);
  }

  /** The loop that collects the day cells: every midnight from the start of
      the month while it is not after the end of the month. */
  method EnumerateDays(reference: Instant) returns (days: seq<int>)
    ensures |days| == MonthLength(reference)
    ensures forall i :: 0 <= i < |days| ==> days[i] == StartOfMonth(reference) + i
    ensures forall i :: 0 <= i < |days| ==>
      FromDayNumber(days[i]) == Date(Shown(reference).year, Shown(reference).month, i + 1)
  {
    var start := StartOfMonth(reference);
    var end := EndOfMonth(reference);
    assert end.day == start + MonthLength(reference) - 1 by {
      var c := Shown(reference);
      DateRoundTrip(Date(c.year, c.month, 1));
      DateRoundTrip(Date(c.year, c.month, MonthLength(reference)));
    }
    days := [];
    var date := start;
    while Ticks(Midnight(date)) <= Ticks(end)
      invariant start <= date <= end.day + 1
      invariant |days| == date - start
      invariant forall i :: 0 <= i < |days| ==> days[i] == start + i
      decreases end.day + 1 - date
    {
      days := days + [date];
      date := date + 1;
    }
    forall i | 0 <= i < |days|
      ensures FromDayNumber(days[i]) == Date(Shown(reference).year, Shown(reference).month, i + 1)
    {
      CellCivilDate(reference, i);
    }
  }

  /** `startOfMonth(currentDate).getDay()`: blank cells before day 1. */
  function LeadingBlanks(reference: Instant): (n: nat)
    ensures n < 7
  {
    Weekday(StartOfMonth(reference))
  }

  /** With the blanks in front, every day cell of a seven-column grid sits in
      the column of its own weekday. */
  lemma GridColumnIsWeekday(reference: Instant, i: nat)
    requires i < MonthLength(reference)
    ensures (LeadingBlanks(reference) + i) % 7 == Weekday(StartOfMonth(reference) + i)
  {
    WeekdayAdvance(StartOfMonth(reference), i);
  }

  /** What one day cell shows of its bucket: the clickable event labels and,
      when present, the count written on the "+N more" control. */
  datatype CellView = CellView(labels: seq<Event>, more: Option<nat>)

  function Display(bucket: seq<Event>): (v: CellView)
    ensures |bucket| == 0 <==> v == CellView([], None)
    ensures |bucket| > 0 ==> |v.labels| > 0 && v.labels[0] == bucket[0]
    ensures |v.labels| <= 2 && v.labels <= bucket
    ensures |v.labels| == 2 <==> |bucket| == 2
    ensures v.more.Some? <==> |bucket| > 2
    ensures v.more.None? ==> v.labels == bucket
    ensures |v.labels| + (if v.more.Some? then v.more.value else 0) == |bucket|
  {
    var n := |bucket|;
    var first := if n > 0 then [bucket[0]] else [];
    var second := if n == 2 then [bucket[1]] else [];
    CellView(first + second, if n > 2 then Some(n - 1) else None)
  }

  /** The component's own state: the reference date, the error banner (empty
      when hidden) and the open "more" list. */
  datatype Calendar = Calendar(current: Instant, error: string, moreList: Option<seq<Event>>)

  /** A click, tagged with the element it landed on. */
  datatype Click =
    | DayCell(day: int)
    | Label(cell: int, slot: nat)
    | MoreControl(cell: int)
    | MoreEntry(index: nat)
    | MoreClose
    | Prev
    | Next

  /** The callback a click fires into the application: `setEvent(date)` or
      `setEditingEvent(event)`. */
  datatype Request = NoRequest | SelectDate(day: int) | EditEvent(event: Event)

  datatype Reaction = Reaction(calendar: Calendar, request: Request)

  /** On first render the reference date is the current instant. */
  function InitialCalendar(now: Instant): (c: Calendar)
    ensures c.current == now && c.error == "" && c.moreList.None?
  {
    Calendar(now, "", None)
  }

  /** `handleDayClick`: refuse a cell whose midnight is not strictly in the
      future, otherwise clear the banner and select the day. */
  function HandleDayClick(c: Calendar, day: int, now: Instant): (r: Reaction)
    ensures r.calendar.current == c.current && r.calendar.moreList == c.moreList
    ensures !IsFuture(Midnight(day), now) ==>
      r.calendar.error == PastDatesMessage && r.request == NoRequest
    ensures IsFuture(Midnight(day), now) ==>
      r.calendar.error == "" && r.request == SelectDate(day)
  {
    if !IsFuture(Midnight(day), now) then
      Reaction(c.(error := PastDatesMessage), NoRequest)
    else
      Reaction(c.(error := ""), SelectDate(day))
  }

  /** A day is accepted exactly when it comes after today; today's own cell,
      being at midnight, is always refused. */
  lemma DayClickAcceptedIff(c: Calendar, day: int, now: Instant)
    ensures HandleDayClick(c, day, now).request.SelectDate? <==> day > now.day
    ensures HandleDayClick(c, day, now).calendar.error == PastDatesMessage <==> day <= now.day
  {
    MidnightIsFutureIff(day, now);
  }

  /** A click on the label in position `slot` of the cell for `cell`: the event
      it shows is opened, and a label that is not on screen does nothing. */
  function LabelClick(c: Calendar, events: seq<Event>, cell: int, slot: nat): (r: Reaction)
    ensures r.calendar == c
    ensures r.request.EditEvent? ==> InShownMonth(c.current, cell) && r.request.event in Bucket(events, cell)
    ensures InShownMonth(c.current, cell) && slot < |Display(Bucket(events, cell)).labels| ==>
      r.request == EditEvent(Bucket(events, cell)[slot])
    ensures !(InShownMonth(c.current, cell) && slot < |Display(Bucket(events, cell)).labels|) ==>
      r == Reaction(c, NoRequest)
  {
    var labels := Display(Bucket(events, cell)).labels;
    if InShownMonth(c.current, cell) && slot < |labels| then Reaction(c, EditEvent(labels[slot]))
    else Reaction(c, NoRequest)
  }

  /** A click on the "+N more" control of the cell for `cell`: the list opens on
      the whole bucket; the control exists only for more than two events. */
  function MoreControlClick(c: Calendar, events: seq<Event>, cell: int): (r: Reaction)
    ensures r.request == NoRequest && r.calendar.current == c.current && r.calendar.error == c.error
    ensures InShownMonth(c.current, cell) && |Bucket(events, cell)| > 2 ==>
      r.calendar == c.(moreList := Some(Bucket(events, cell)))
    ensures !(InShownMonth(c.current, cell) && |Bucket(events, cell)| > 2) ==>
      r == Reaction(c, NoRequest)
  {
    var bucket := Bucket(events, cell);
    if InShownMonth(c.current, cell) && Display(bucket).more.Some? then
      Reaction(c.(moreList := Some(bucket)), NoRequest)
    else Reaction(c, NoRequest)
  }

  /** A click on entry `index` of the open list: that event is opened and the
      list closes; without an open list, or past its end, nothing happens. */
  function MoreEntryClick(c: Calendar, index: nat): (r: Reaction)
    ensures c.moreList.Some? && index < |c.moreList.value| ==>
      r == Reaction(c.(moreList := None), EditEvent(c.moreList.value[index]))
    ensures !(c.moreList.Some? && index < |c.moreList.value|) ==>
      r == Reaction(c, NoRequest)
  {
    if c.moreList.Some? && index < |c.moreList.value| then
      Reaction(c.(moreList := None), EditEvent(c.moreList.value[index]))
    else Reaction(c, NoRequest)
  }

  function Step(c: Calendar, events: seq<Event>, click: Click, now: Instant): (r: Reaction)
    // clicks on event labels, on "+N more" and inside the list never run the day-cell logic
    ensures !click.DayCell? ==> r.calendar.error == c.error && !r.request.SelectDate?
    ensures (click.Prev? || click.Next? || click.MoreClose?) ==> r.request == NoRequest
    ensures click.Prev? ==> r.calendar == c.(current := AddDays(c.current, -NavigationStep))
    ensures click.Next? ==> r.calendar == c.(current := AddDays(c.current, NavigationStep))
    ensures click.MoreClose? ==> r.calendar == c.(moreList := None)
    ensures click.DayCell? && InShownMonth(c.current, click.day) ==> r == HandleDayClick(c, click.day, now)
    ensures click.DayCell? && !InShownMonth(c.current, click.day) ==> r == Reaction(c, NoRequest)
    ensures click.Label? ==> r == LabelClick(c, events, click.cell, click.slot)
    ensures click.MoreControl? ==> r == MoreControlClick(c, events, click.cell)
    ensures click.MoreEntry? ==> r == MoreEntryClick(c, click.index)
  {
    match click
    case DayCell(day) =>
      if InShownMonth(c.current, day) then HandleDayClick(c, day, now) else Reaction(c, NoRequest)
    case Label(cell, slot) => LabelClick(c, events, cell, slot)
    case MoreControl(cell) => MoreControlClick(c, events, cell)
    case MoreEntry(index) => MoreEntryClick(c, index)
    case MoreClose => Reaction(c.(moreList := None), NoRequest)
    case Prev => Reaction(c.(current := AddDays(c.current, -NavigationStep)), NoRequest)
    case Next => Reaction(c.(current := AddDays(c.current, NavigationStep)), NoRequest)
  }

  /** Every event of a shown day can be opened for editing: by its own label
      when the cell has no "+N more" control, otherwise from the list that
      control opens, which holds the whole bucket in order. */
  lemma EveryEventReachable(c: Calendar, events: seq<Event>, day: int, now: Instant, e: Event)
    requires InShownMonth(c.current, day)
    requires e in Bucket(events, day)
    ensures
      (exists slot: nat :: Step(c, events, Label(day, slot), now).request == EditEvent(e)) ||
      (exists index: nat ::
         var listed := Step(c, events, MoreControl(day), now).calendar;
         Step(listed, events, MoreEntry(index), now).request == EditEvent(e))
  {
    var bucket := Bucket(events, day);
    var v := Display(bucket);
    var k :| 0 <= k < |bucket| && bucket[k] == e;
    if v.more.None? {
      assert Step(c, events, Label(day, k), now).request == EditEvent(e);
    } else {
      var listed := Step(c, events, MoreControl(day), now).calendar;
      assert listed.moreList == Some(bucket);
      assert Step(listed, events, MoreEntry(k), now).request == EditEvent(e);
    }
  }

  /** Prev then Next, or Next then Prev, restores the reference date. */
  lemma NavigationRoundTrip(c: Calendar, events: seq<Event>, now: Instant)
    ensures Step(Step(c, events, Prev, now).calendar, events, Next, now).calendar == c
    ensures Step(Step(c, events, Next, now).calendar, events, Prev, now).calendar == c
  {
  }

  /** The fixed step is not a calendar month: from the 1st of a 31-day month,
      Next stays in the same month. */
  lemma NextCanStayInMonth(c: Calendar, events: seq<Event>, now: Instant)
    requires Shown(c.current).day == 1 && MonthLength(c.current) == 31
    ensures Shown(Step(c, events, Next, now).calendar.current) ==
      Date(Shown(c.current).year, Shown(c.current).month, 31)
  {
    assert Step(c, events, Next, now).calendar.current.day == c.current.day + 30;
    ShiftWithinMonth(c.current.day, 30);
  }

  /** From January 31st of a common year, Next lands on March 2nd: that step
      passes over February. */
  lemma NextSkipsFebruary(c: Calendar, events: seq<Event>, now: Instant)
    requires Shown(c.current) == Date(Shown(c.current).year, 1, 31)
    requires !IsLeapYear(Shown(c.current).year)
    ensures Shown(Step(c, events, Next, now).calendar.current) == Date(Shown(c.current).year, 3, 2)
  {
    var s := Shown(c.current);
    assert Step(c, events, Next, now).calendar.current.day == DayNumber(Date(s.year, 3, 1)) + 1;
    DayOfMonth(s.year, 3, 1);
  }

  /** A day is in the shown month exactly when it lies within the month's
      length of the month's first day. */
  lemma InShownMonthOffset(reference: Instant, day: int)
    ensures InShownMonth(reference, day) <==>
      StartOfMonth(reference) <= day < StartOfMonth(reference) + MonthLength(reference)
  {
    if InShownMonth(reference, day) {
      ShownDayHasOffset(reference, day);
    }
    if StartOfMonth(reference) <= day < StartOfMonth(reference) + MonthLength(reference) {
      CellCivilDate(reference, day - StartOfMonth(reference));
    }
  }

  /** A day of the shown month is its civil day, less one, after the first day. */
  lemma ShownDayHasOffset(reference: Instant, day: int)
    requires InShownMonth(reference, day)
    ensures day == StartOfMonth(reference) + FromDayNumber(day).day - 1
    ensures 1 <= FromDayNumber(day).day <= MonthLength(reference)
  {
    var d := FromDayNumber(day);
    assert d == Date(Shown(reference).year, Shown(reference).month, d.day);
    CellCivilDate(reference, d.day - 1);
    assert DayNumber(FromDayNumber(StartOfMonth(reference) + d.day - 1)) == DayNumber(d);
  }

  /** Each event of the collection shows up under exactly one cell of the
      month when it is dated inside that month, and under none otherwise. */
  lemma EventInExactlyOneCell(reference: Instant, days: seq<int>, events: seq<Event>, e: Event)
    requires |days| == MonthLength(reference)
    requires forall i :: 0 <= i < |days| ==> days[i] == StartOfMonth(reference) + i
    requires e in events
    ensures InShownMonth(reference, e.date) <==>
      exists j :: 0 <= j < |days| && e in Bucket(events, days[j])
    ensures forall j, k ::
      (0 <= j < |days| && 0 <= k < |days| &&
       e in Bucket(events, days[j]) && e in Bucket(events, days[k])) ==> j == k
  {
    InShownMonthOffset(reference, e.date);
    if InShownMonth(reference, e.date) {
      var j := e.date - StartOfMonth(reference);
      assert e in Bucket(events, days[j]);
    }
  }

  /** Counting version: the cells of the month show, between them, exactly the
      events dated inside the month, each once. */
  lemma MonthBucketsCount(reference: Instant, days: seq<int>, events: seq<Event>)
    requires |days| == MonthLength(reference)
    requires forall i :: 0 <= i < |days| ==> days[i] == StartOfMonth(reference) + i
    ensures SumBuckets(events, days) == |DatedWithin(events, days)|
    ensures forall e :: e in events ==> (e.date in days <==> InShownMonth(reference, e.date))
  {
    BucketsPartition(events, days);
    forall e | e in events
      ensures e.date in days <==> InShownMonth(reference, e.date)
    {
      EventInExactlyOneCell(reference, days, events, e);
    }
  }
}

=== FILE: session.dfy ===
/** The three components wired together as in `App.jsx`: the calendar's
    requests set the selectors, the editor is mounted while a selector is set
    (and reset when the record it edits changes), and the editor's save or
    cancel goes back to the store.

    Every input is applied synchronously with the current minute `now` and the
    id a created record would receive.
 */
module Session {
  import opened Clock
  import opened Events
  import opened Wrappers
  import opened MonthView
  import opened EventForm
  import opened App

  datatype Session = Session(app: AppState, calendar: Calendar, form: Option<Form>)

  datatype Input = Press(click: Click) | Fill(input: FormInput)

  /** The editor exists exactly while the application says it is open. */
  predicate Consistent(s: Session) {
    s.form.Some? <==> EditorOpen(s.app)
  }

  function Start(seed: seq<Event>, now: Instant): (s: Session)
    ensures Consistent(s) && !EditorOpen(s.app) && s.app.events == seed
  {
    Session(Init(seed), InitialCalendar(now), None)
  }

  /** The calendar's callbacks: `setEvent` sets `selectedDate`, `setEditingEvent`
      sets `editingEvent`. */
  function Route(app: AppState, request: Request): (r: AppState)
    ensures r.events == app.events
    ensures request.NoRequest? ==> r == app
    ensures request.SelectDate? ==> r.selectedDate == Some(request.day) && r.editingEvent == app.editingEvent
    ensures request.EditEvent? ==> r.editingEvent == Some(request.event) && r.selectedDate == app.selectedDate
  {
    match request
    case NoRequest => app
    case SelectDate(day) => app.(selectedDate := Some(day))
    case EditEvent(e) => app.(editingEvent := Some(e))
  }

  /** Mount the editor when it opens, rerun its reset effect when the record
      it edits changes, and drop it when it closes. */
  function SyncForm(before: AppState, after: AppState, form: Option<Form>): (r: Option<Form>)
    ensures r.Some? <==> EditorOpen(after)
    ensures EditorOpen(after) && form.None? ==> r == Some(Mount(after.editingEvent))
    ensures EditorOpen(after) && form.Some? && after.editingEvent == before.editingEvent ==> r == form
    // no stale carryover: a different record being edited resets title and time, keeping the error
    ensures EditorOpen(after) && form.Some? && after.editingEvent != before.editingEvent ==>
      r == Some(Reset(form.value, after.editingEvent))
  {
    if !EditorOpen(after) then None
    else if form.None? then Some(Mount(after.editingEvent))
    else if after.editingEvent != before.editingEvent then Some(Reset(form.value, after.editingEvent))
    else form
  }

  function Step(s: Session, input: Input, now: Instant, newId: int): (r: Session)
    // only a save emitted by the editor changes the store
    ensures r.app.events != s.app.events ==> input.Fill? && input.input.SubmitForm? && !EditorOpen(r.app)
    // the editor's inputs never touch the calendar
    ensures input.Fill? ==> r.calendar == s.calendar
    // a calendar click never touches the store
    ensures input.Press? ==> r.app.events == s.app.events
    // a calendar click runs the calendar, routes its request into the selectors and syncs the editor
    ensures input.Press? ==>
      var reaction := MonthView.Step(s.calendar, s.app.events, input.click, now);
      && r.calendar == reaction.calendar
      && r.app == Route(s.app, reaction.request)
      && r.form == SyncForm(s.app, r.app, s.form)
    // typing into the open editor updates only the form
    ensures (input.Fill? && (input.input.TypeTitle? || input.input.PickTime?) && EditorOpen(s.app) && s.form.Some?) ==>
      r == s.(form := Some(Handle(s.form.value, input.input, FormDate(s.app), now).0))
    // with no editor on screen, editor inputs change nothing
    ensures (input.Fill? && !(EditorOpen(s.app) && s.form.Some?)) ==> r == s
    // cancel from the open editor keeps the store and closes the editor
    ensures input.Fill? && input.input.CancelForm? && EditorOpen(s.app) && s.form.Some? ==>
      r.app.events == s.app.events && !EditorOpen(r.app) && r.form.None?
    // a save from the open editor goes through the store's save handler and closes the editor
    ensures (input.Fill? && input.input.SubmitForm? && EditorOpen(s.app) && s.form.Some? &&
             Submit(s.form.value, FormDate(s.app), now).1.Save?) ==>
      r.app == SaveEvent(s.app, Submit(s.form.value, FormDate(s.app), now).1.draft, newId) && r.form.None?
    // a refused submit keeps the store and the selectors and leaves the editor open with the form's new state
    ensures (input.Fill? && input.input.SubmitForm? && EditorOpen(s.app) && s.form.Some? &&
             !Submit(s.form.value, FormDate(s.app), now).1.Save?) ==>
      r.app == s.app && r.form == Some(Submit(s.form.value, FormDate(s.app), now).0)
  {
    match input
    case Press(click) =>
      var reaction := MonthView.Step(s.calendar, s.app.events, click, now);
      var app := Route(s.app, reaction.request);
      Session(app, reaction.calendar, SyncForm(s.app, app, s.form))
    case Fill(formInput) =>
      if !EditorOpen(s.app) || s.form.None? then s
      else
        var (f, emit) := Handle(s.form.value, formInput, FormDate(s.app), now);
        match emit
        case Nothing => s.(form := Some(f))
        case Save(d) => Session(SaveEvent(s.app, d, newId), s.calendar, None)
        case Cancel => Session(CancelEdit(s.app), s.calendar, None)
  }

  lemma StepKeepsConsistent(s: Session, input: Input, now: Instant, newId: int)
    requires Consistent(s)
    ensures Consistent(Step(s, input, now, newId))
  {
  }

  /** Ids stay unique across any input, given a fresh id for a created record. */
  lemma StepKeepsUniqueIds(s: Session, input: Input, now: Instant, newId: int)
    requires UniqueIds(s.app.events)
    requires FreshId(s.app.events, newId)
    ensures UniqueIds(Step(s, input, now, newId).app.events)
  {
    if input.Fill? && EditorOpen(s.app) && s.form.Some? {
      var (f, emit) := Handle(s.form.value, input.input, FormDate(s.app), now);
      if emit.Save? {
        SavePreservesUniqueIds(s.app, emit.draft, newId);
      }
    }
  }

  /** Opening a stored event and submitting it unchanged writes the same record
      back: the editor's reset and the store's merge undo each other. */
  lemma UnchangedEditRoundTrip(s: Session, e: Event, now: Instant, newId: int)
    requires s.app.selectedDate.None? && s.app.editingEvent == Some(e)
    requires s.form == Some(Mount(Some(e)))
    requires e.title != "" && e.time.At?
    requires IsFuture(ComposeInstant(e.date, e.time), now)
    requires forall i :: 0 <= i < |s.app.events| && s.app.events[i].id == e.id ==> s.app.events[i] == e
    ensures Step(s, Fill(SubmitForm), now, newId).app.events == s.app.events
    ensures !EditorOpen(Step(s, Fill(SubmitForm), now, newId).app)
  {
    var r := Step(s, Fill(SubmitForm), now, newId).app.events;
    assert Submit(s.form.value, e.date, now).1 == Save(Draft(e.title, e.time, e.date));
    assert |r| == |s.app.events|;
    forall i | 0 <= i < |r|
      ensures r[i] == s.app.events[i]
    {
      if s.app.events[i].id == e.id {
        assert r[i] == Merge(e, Draft(e.title, e.time, e.date));
      }
    }
  }

  /** Creating an event: on a fresh session, clicking a later day of the shown
      month, typing a title, picking a time and submitting stores exactly that
      event, dated on the clicked day, and closes the editor. */
  lemma CreateScenario(now: Instant, day: int, newId: int)
    requires InShownMonth(now, day) && day > now.day
    ensures
      var s0 := Start([], now);
      var s1 := Step(s0, Press(DayCell(day)), now, newId);
      var s2 := Step(s1, Fill(TypeTitle("Standup")), now, newId);
      var s3 := Step(s2, Fill(PickTime(At(9, 0))), now, newId);
      var s4 := Step(s3, Fill(SubmitForm), now, newId);
      && s1.app.selectedDate == Some(day) && s1.form == Some(Form("", Blank, ""))
      && s4.app.events == [Event(newId, "Standup", At(9, 0), day)]
      && !EditorOpen(s4.app) && s4.form.None?
  {
    var s0 := Start([], now);
    DayClickAcceptedIff(s0.calendar, day, now);
    var s1 := Step(s0, Press(DayCell(day)), now, newId);
    assert s1.app.selectedDate == Some(day);
    var s2 := Step(s1, Fill(TypeTitle("Standup")), now, newId);
    var s3 := Step(s2, Fill(PickTime(At(9, 0))), now, newId);
    assert s3.form == Some(Form("Standup", At(9, 0), ""));
    SubmitOnLaterDay(s3.form.value, day, now);
  }

  /** Clicking a day that is not after today shows the past-dates banner,
      leaves the store alone and does not open the editor. */
  lemma PastDayScenario(s: Session, day: int, now: Instant, newId: int)
    requires Consistent(s) && !EditorOpen(s.app)
    requires InShownMonth(s.calendar.current, day) && day <= now.day
    ensures
      var r := Step(s, Press(DayCell(day)), now, newId);
      && r.calendar.error == PastDatesMessage
      && r.app == s.app
      && !EditorOpen(r.app) && r.form.None?
  {
    DayClickAcceptedIff(s.calendar, day, now);
  }

  /** Submitting an edit whose composed instant is already past shows the
      past-times message, keeps the store, and leaves the editor open. */
  lemma PastEditScenario(s: Session, now: Instant, newId: int)
    requires Consistent(s)
    requires s.app.selectedDate.None? && s.app.editingEvent.Some?
    requires !IsFuture(ComposeInstant(s.app.editingEvent.value.date, s.form.value.time), now)
    ensures
      var r := Step(s, Fill(SubmitForm), now, newId);
      && r.form.Some? && r.form.value.error == PastTimesMessage
      && r.app == s.app
      && EditorOpen(r.app)
  {
  }

  /** A day with three events: "+2 more" opens a list of all three, and choosing
      the third opens the editor on it with its title and time filled in. */
  lemma MoreListScenario(s: Session, day: int, now: Instant, newId: int)
    requires Consistent(s) && !EditorOpen(s.app)
    requires InShownMonth(s.calendar.current, day)
    requires |Bucket(s.app.events, day)| == 3
    ensures
      var bucket := Bucket(s.app.events, day);
      var s1 := Step(s, Press(MoreControl(day)), now, newId);
      var s2 := Step(s1, Press(MoreEntry(2)), now, newId);
      && Display(bucket).more == Some(2)
      && s1.calendar.moreList == Some(bucket) && !EditorOpen(s1.app)
      && s2.calendar.moreList.None?
      && s2.app.editingEvent == Some(bucket[2])
      && s2.form.Some? && s2.form.value.title == bucket[2].title && s2.form.value.time == bucket[2].time
  {
  }
}

=== FILE: wrappers.dfy ===
/** The nullable values of the application (`selectedDate`, `editingEvent`,
    the open "more" list, `initialData`) are modelled as options. */
module Wrappers {

  datatype Option<+T> = None | Some(value: T)
}
